=== FILE: README.md ===
# Time Mosaic: a Dafny model of the shell, the mosaic mirror and the day allocator

Time Mosaic is a small single-page app in three screens:

1. **Onboarding.** The user enters their age and daily screen time. The app
   shows the years of remaining life (to age 80) spent on screens. A submit
   asks a text service for a "roast".
2. **The mosaic mirror.** The camera frame is re-drawn every animation frame
   as a mosaic. The cells get smaller and more chaotic as screen time grows:
   - dark cells are skipped;
   - dim cells become flat squares;
   - bright cells become squares or, at random, pictogram or tech-logo glyphs.

   Above a chaos threshold, a horizontal strip of the picture may also be torn
   sideways.
3. **The day builder.** Five sliders split a 24-hour day. The hours left over
   are "doomscroll" time. An analysis line and a stacked bar show the result.

The model has six modules:

| file | module | models |
|---|---|---|
| `wrappers.dfy` | `Wrappers` | an `Option` type (the `x \|\| 0` and `null` cases) |
| `types.dfy` | `Types` | the record and enum shapes shared by the screens |
| `js_math.dfy` | `JsMath` | `Math.max`, `Math.min` and `Math.abs` on reals |
| `mosaic.dfy` | `Mosaic` | the per-frame renderer of the mirror |
| `day_allocator.dfy` | `DayAllocator` | the allocation arithmetic, the analysis choice and the bar |
| `app.dfy` | `App` | the stage machine, the submit guard, the form edits and the lost-years formula |

Modelling choices:

- Everything the host supplies to a frame is an explicit input:
  - the camera size and readiness;
  - the sampled RGBA buffer;
  - the clock-driven sine, as a function `wave` from `x * y` to `sin(x * y + time)`;
  - the random number generator, as an infinite stream `rand` read from a cursor.
- Every drawing function returns the operations it emits and the advanced cursor. This makes the order and number of random draws part of the contract:
  - one draw for every cell that is not dark;
  - a second draw only for a glyph;
  - for the tear: no draw at chaos 0.6 or below, then one gate draw, plus three more when the tear happens.
- Drawing is a list of `DrawOp`s: rectangle fills, glyphs and strip copies.
- Numbers are Dafny reals, so double-precision rounding is not modelled.
- The canvas height is updated only when the canvas width differs from the video width. `Mosaic.Resize` keeps that behaviour.
- A grid with no column or no row makes the image-data read throw. That tick draws nothing and ends the animation loop (`Mosaic.Tick`, `Mosaic.NarrowVideoEndsLoop`).

## Model

| member | source | states |
|---|---|---|
| Mosaic.ChaosLevel | components/MosaicFilter.tsx:22-24 | chaos lies in [0.1, 1]; it is 0.1 up to 1.2 hours, 1 from 12 hours, and a twelfth of the hours in between |
| Mosaic.ChaosMonotone | components/MosaicFilter.tsx:24 | more screen time never gives less chaos |
| Mosaic.CellSize | components/MosaicFilter.tsx:25 | the cell side is the whole part of 20 - 10 * chaos; for chaos in [0.1, 1] it lies between 10 and 19 pixels |
| Mosaic.CellSizeAntitone | components/MosaicFilter.tsx:25 | more chaos never gives larger cells |
| Mosaic.CellSizeFor | components/MosaicFilter.tsx:24-25 | for any screen time, the cell side is between 10 and 19 pixels |
| Mosaic.NoScreenTimeScenario | components/MosaicFilter.tsx:24-25 | zero hours gives chaos 0.1, 19-pixel cells and no possible tear |
| Mosaic.TwelveHoursScenario | components/MosaicFilter.tsx:24-25 | twelve hours gives chaos 1, 10-pixel cells and a possible tear |
| Mosaic.LeakageWarningThreshold | components/MosaicFilter.tsx:189 | the attention-leakage banner shows exactly when screen time exceeds 6 hours |
| Mosaic.TearThreshold | components/MosaicFilter.tsx:134 | a tear is possible exactly when screen time exceeds 7.2 hours |
| Mosaic.GridOf | components/MosaicFilter.tsx:76-77 | the grid is the largest whole number of cells that fits the canvas in each direction |
| Mosaic.RowMajorCell | components/MosaicFilter.tsx:96 | cell (x, y) has number y * cols + x inside the grid, and that number decodes back to (x, y) |
| Mosaic.CellOfIndex | components/MosaicFilter.tsx:96 | every number below cols * rows decodes to a cell of the grid |
| Mosaic.RowMajorBijection | components/MosaicFilter.tsx:94-96 | a number names cell (x, y) exactly when it equals y * cols + x, so distinct cells have distinct row-major numbers and buffer offsets |
| Mosaic.PixelInBuffer | components/MosaicFilter.tsx:86-99 | the three colour channels read for a cell lie inside the cols * rows * 4 buffer |
| Mosaic.ModeOf | components/MosaicFilter.tsx:100-123 | a cell is dark exactly when its channel sum is under 90; it is a glyph exactly when the sum exceeds 300 and the first draw is under 0.8 * chaos; a glyph is a pictogram exactly when the second draw exceeds 0.5 |
| Mosaic.SymbolIndex | components/MosaicFilter.tsx:117 | the glyph index is always inside the chosen set, whatever the seed |
| Mosaic.GlyphFor | components/MosaicFilter.tsx:116-117 | the chosen symbol belongs to the chosen set |
| Mosaic.Symbols | components/MosaicFilter.tsx:12-13 | neither glyph set is empty |
| Mosaic.DrawCell | components/MosaicFilter.tsx:100-129 | a dark cell emits nothing and reads no draw; a dim cell emits a square one pixel short of the cell in its own colour; a bright cell emits one operation, a glyph exactly when the first draw is under 0.8 * chaos; a bright cell that loses the first draw is the same square as a dim cell; a glyph is centred on its cell, uses the cell colour at font size equal to the cell side, is picked from the set the second draw chose at the seed's index, and reads two draws, a square reads one |
| Mosaic.DrawMosaicRow | components/MosaicFilter.tsx:95-130 | the inner loop emits one operation per lit cell of the row, reads one draw per operation plus one per glyph, and emits only squares and glyphs inside the grid; its result equals the recursive `RenderRow` that `Mosaic.Tick` uses |
| Mosaic.DrawMosaicCells | components/MosaicFilter.tsx:94-131 | the nested loops emit one operation per lit cell of the frame, read one draw per operation plus one per glyph, and emit only squares and glyphs inside the grid; their result equals the recursive `RenderRows` that `Mosaic.Tick` uses |
| Mosaic.CountTextAppend | components/MosaicFilter.tsx:125-129 | the glyph count of two concatenated drawings is the sum of their counts |
| Mosaic.AccountedAppend | components/MosaicFilter.tsx:94-131 | the draw accounting holds for a drawing that continues where another stopped |
| Mosaic.CellAccounting | components/MosaicFilter.tsx:107-129 | a cell emits one operation when lit and none when dark; it reads one draw per operation plus one per glyph |
| Mosaic.RenderRowOpCount | components/MosaicFilter.tsx:95-130 | a row emits exactly one operation per lit cell |
| Mosaic.RenderRowAccounted | components/MosaicFilter.tsx:95-130 | a row reads one draw per operation plus one per glyph |
| Mosaic.RenderRowsOpCount | components/MosaicFilter.tsx:94-131 | the cell pass emits exactly one operation per lit cell of the frame |
| Mosaic.RenderRowsAccounted | components/MosaicFilter.tsx:94-131 | the cell pass reads one draw per lit cell plus one per glyph |
| Mosaic.DarkFrameDrawsNothing | components/MosaicFilter.tsx:107 | a frame whose cells are all dark emits nothing and reads no draw |
| Mosaic.DarkRowsCountNothing | components/MosaicFilter.tsx:107 | an all-dark frame has no lit cell in any of its rows |
| Mosaic.DarkRowCountsNothing | components/MosaicFilter.tsx:107 | an all-dark frame has no lit cell in any prefix of a row |
| Mosaic.BlackBufferIsDark | components/MosaicFilter.tsx:97-107 | an all-zero sample buffer makes every cell dark |
| Mosaic.CellInsideGrid | components/MosaicFilter.tsx:102-129 | a cell's square and a cell's glyph centre stay inside the grid's pixel area |
| Mosaic.CellSpan | components/MosaicFilter.tsx:102-103 | a cell in column or row i < n ends within n cells |
| Mosaic.RenderRowInsideGrid | components/MosaicFilter.tsx:95-130 | every operation of a row stays inside the grid |
| Mosaic.RenderRowsInsideGrid | components/MosaicFilter.tsx:94-131 | every operation of the cell pass stays inside the grid |
| Mosaic.RenderRowNeverTears | components/MosaicFilter.tsx:95-130 | a row never emits a strip copy |
| Mosaic.RenderRowsNeverTear | components/MosaicFilter.tsx:94-131 | the cell pass never emits a strip copy |
| Mosaic.Glitch | components/MosaicFilter.tsx:133-139 | at chaos 0.6 or below there is no tear and no draw; above it, a tear happens exactly when the gate draw exceeds 0.9; a tear is one full-width strip copy and reads four draws, a skipped tear reads one |
| Mosaic.GlitchRanges | components/MosaicFilter.tsx:135-137 | with draws in [0, 1), a strip is under 50 pixels high, starts on the canvas, and shifts by an amount in [-25, 25) |
| Mosaic.ScaleUnitDraw | components/MosaicFilter.tsx:135-137 | a draw in [0, 1) scaled by a non-negative size lies in [0, size], strictly below a positive size |
| Mosaic.Resize | components/MosaicFilter.tsx:63-67 | after a tick the canvas width is the video width; the height follows only when the widths differed |
| Mosaic.TickGrid | components/MosaicFilter.tsx:24-25 | a tick's grid uses the cell side derived from screen time |
| Mosaic.Tick | components/MosaicFilter.tsx:53-142 | a tick that is not ready draws nothing, keeps the canvas and asks for the next frame; a tick without a scratch context, or whose grid has no column or no row (the image-data read throws), draws nothing, reads no draw and stops the loop; a full tick blanks the whole canvas black first and asks for the next frame; the random stream is never read backwards |
| Mosaic.NarrowVideoEndsLoop | components/MosaicFilter.tsx:76-86 | a 9-pixel-wide video at zero hours gives a grid with no column, so the tick draws nothing and does not ask for another frame |
| Mosaic.TickStaysOnCanvas | components/MosaicFilter.tsx:53-142 | every operation of a tick lies on the canvas the tick leaves behind |
| Mosaic.BlackFrameTick | components/MosaicFilter.tsx:88-139 | on an all-black frame a tick draws the background first and at most one more operation, a strip copy |
| Mosaic.CalmTickNeverTears | components/MosaicFilter.tsx:133-134 | at 7.2 hours of screen time or less, no tick ever emits a strip copy, whatever the frame and the draws |
| JsMath.Max | components/MosaicFilter.tsx:24 | the maximum is one of its arguments and at least both |
| JsMath.Min | components/MosaicFilter.tsx:24 | the minimum is one of its arguments and at most both |
| JsMath.Abs | components/MosaicFilter.tsx:117 | the absolute value is non-negative and equals the argument or its negation |
| DayAllocator.SumOfFive | components/DayAllocator.tsx:31 | the sum of five numbers is their spelled-out sum |
| DayAllocator.FoldSumIsSum | components/DayAllocator.tsx:31 | folding with + from an accumulator adds the sequence's sum to it |
| DayAllocator.TotalAllocated | components/DayAllocator.tsx:31 | the total is the sum of the five categories' hours |
| DayAllocator.DoomscrollTime | components/DayAllocator.tsx:32 | doomscroll time is never negative; it tops a total of at most 24 up to exactly 24, and is 0 from 24 hours on |
| DayAllocator.OverbookedVersusDoomscroll | components/DayAllocator.tsx:32-33 | an overbooked day has no doomscroll time; positive doomscroll time means not overbooked; both are absent exactly at 24 hours |
| DayAllocator.InitialAllocationTotals | components/DayAllocator.tsx:20-26 | the opening allocation covers 19 hours and leaves 5 hours of doomscroll |
| DayAllocator.RoundTenth | components/DayAllocator.tsx:38 | the stored value is a whole number of tenths, within 0.05 of the slider value, with the same sign |
| DayAllocator.TenthsOnGrid | components/DayAllocator.tsx:38 | n tenths, times ten, is the whole number n |
| DayAllocator.RoundTenthKeepsTenths | components/DayAllocator.tsx:38 | a value already in tenths is stored unchanged |
| DayAllocator.RoundTenthTies | components/DayAllocator.tsx:38 | a value halfway between two tenths is stored as the one farther from zero, for positive and negative values alike |
| DayAllocator.RoundTenthIdempotent | components/DayAllocator.tsx:38 | rounding a stored value again changes nothing |
| DayAllocator.SliderValuesStoredExactly | components/DayAllocator.tsx:76-81 | every slider position, 0 to 16 in steps of 0.5, is stored exactly |
| DayAllocator.HandleChange | components/DayAllocator.tsx:35-40 | a slider change sets its own category to the rounded value and leaves every other category unchanged |
| DayAllocator.HandleChangeTotal | components/DayAllocator.tsx:35-40 | a slider change moves the total by exactly the change in its category |
| DayAllocator.ChooseAnalysis | components/DayAllocator.tsx:45-54 | the service is asked exactly when doomscroll exceeds half an hour and the day is not overbooked; the physics text is used exactly when overbooked; the packed text otherwise |
| DayAllocator.AnalysisByTotal | components/DayAllocator.tsx:31-54 | by total: the service is asked below 23.5 hours, the physics text is used above 24, the packed text from 23.5 to 24 |
| DayAllocator.AnalysisLineByTotal | components/DayAllocator.tsx:44-54 | the line that the settled timer's own choice sets is the service's answer (asked about 24 - total hours) below 23.5 hours, the packed text from 23.5 to 24, and the physics text above 24 |
| DayAllocator.DoomscrollSegment | components/DayAllocator.tsx:118-124 | the red segment is present exactly when the total is under 24 hours, and its width is the positive share of the leftover hours |
| DayAllocator.CategoryWidths | components/DayAllocator.tsx:111-117 | the category segments, in bar order, each take their category's share of 24 hours, and together take total / 24 of the bar |
| DayAllocator.BarFillsDay | components/DayAllocator.tsx:110-125 | a day that is not overbooked fills the bar to exactly 100%; an overbooked day overflows it |
| App.Step | App.tsx:16-24 | a stage change is an allowed edge; edits change only their own field and only on onboarding; only a returning roast changes the roast; loading starts only through an enabled submit on onboarding; it ends only with the roast received and the mirror shown |
| App.TransitionsTaken | App.tsx:124-138 | back and next from the mirror, restart from the day builder and a received roast each move to their screen |
| App.SubmitGuard | App.tsx:104-107 | a submit starts loading exactly on onboarding, when nothing is loading and screen time is positive; otherwise it changes nothing; it never changes the screen or the stats |
| App.EditsTouchOneField | App.tsx:76-89 | an age edit changes only the age, and a screen-time edit only the screen time; the field takes the typed number, or 0 when the text is not a number (the `\|\| 0` fallback) |
| App.StepKeepsConsistent | App.tsx:16-24 | every event keeps two facts: loading only on onboarding, and a roast on every other screen |
| App.RunKeepsConsistent | App.tsx:11-24 | any sequence of events keeps those facts |
| App.LeavingOnboardingNeedsSubmit | App.tsx:104-107 | without a submit click, no sequence of events leaves onboarding or starts loading |
| App.InitialIsConsistent | App.tsx:11-14 | the first render shows onboarding with age 25 and 4 hours, no roast, not loading, and is consistent |
| App.LostYears | App.tsx:26-30 | the years lost are (80 - age) * hours / 24 |
| App.LostYearsShape | App.tsx:26-30 | lost years vanish at age 80 and are non-negative below it; up to age 80 they grow with screen time, and past 80 (the field accepts up to 100) they shrink as it grows |
| App.LostYearsAgree | services/geminiService.ts:15 | the onboarding card and the roast request compute the same number of years |

## Left out

- Camera acquisition, the permission error text and stopping the camera tracks on teardown. These are browser media calls. The model takes a ready flag and the frame size as inputs.
- The canvas calls themselves are not modelled:
  - the downscaling `drawImage` and `getImageData`. The sampled buffer is an input, and its length of four bytes per cell is a precondition of `Mosaic.Tick` for a non-empty grid. The one failure of `getImageData` the model keeps is the HTML canvas rule that a zero width or height throws an "IndexSizeError": that tick ends before the background fill and without asking for another frame.
  - fill styles, fonts, text alignment and the self-copy `drawImage`. These appear as `DrawOp` values.
- `requestAnimationFrame`, `cancelAnimationFrame` and the React effect lifecycle. A tick reports only whether it asked for the next frame.
- `Date.now()` and `Math.sin` are folded into the opaque `wave` input. Only the index taken from it is constrained.
- IEEE double arithmetic. Reals are exact, so boundary comparisons (such as chaos 0.6 at 7.2 hours) hold exactly in the model.
- `toFixed(1)` as a string. `DayAllocator.RoundTenth` models `parseFloat(v.toFixed(1))` as rounding to tenths with halves away from zero. Lost years are modelled before formatting.
- The one-second debounce timer and its cancellation. `DayAllocator.ChooseAnalysis` is the decision made when the timer fires, and `AnalysisText` is the line that decision sets. The loading placeholder is not modelled.
- The text service, which is an external network call:
  - its answer is a parameter (`App.Event.RoastReceived`, `AnalysisText`'s `serviceAnswer`);
  - its missing-key and error fallbacks are not modelled.
- DayAllocator.AnalysisLineByTotal: assumes no service call from an earlier settle is still waiting. In the code, the effect cleanup only clears the timer (components/DayAllocator.tsx:57), so a late answer still runs lines 48-49. It then overwrites a newer fixed line, even on an overbooked day. The fixed-text branches never clear the loading flag either, so the placeholder can hide that newer line. The model states the line the latest timer's choice sets, not what ends up on screen.
- `App.Step`: `parseInt`/`parseFloat` of the typed text are abstracted as an already-parsed optional number.
- The sound engine, hover sounds, the `Button` and `BrainrotElement` components, and all layout and styling. This includes:
  - the danger button variant above 6 hours;
  - the red doomscroll figure above 3 hours;
  - the width of the chaos meter.
- `DayAllocation` in the shared types, which is never used (its `chores` field has no slider).
- `DayAllocator.HandleChange` takes one of the five categories. The screen only ever passes those ids, so the record never gains another key.

=== FILE: app.dfy ===
/** The application shell: which screen is showing, the onboarding form, the
    submit that fetches a roast, and the navigation between screens. */
module App {

  import opened Wrappers
  import opened Types

  /** Everything the shell keeps between events. */
  datatype AppState = AppState(stage: AppStage, stats: UserStats, roast: Option<RoastResponse>, loading: bool)

  /** The shell on first render. */
  const InitialState := AppState(Onboarding, UserStats(25, 4.0), None, false)

  /** What can happen to the shell. A parsed field is `None` when the text
      typed is not a number. */
  datatype Event =
    | AgeEdited(parsedAge: Option<int>)
    | ScreenTimeEdited(parsedHours: Option<real>)
    | SubmitClicked
    | RoastReceived(result: RoastResponse)   // the awaited service call of a submit returns
    | BackClicked
    | NextClicked
    | RestartClicked

  /** The submit button is enabled: not already loading and some screen time. */
  predicate SubmitEnabled(s: AppState)
  {
    !s.loading && s.stats.dailyScreenTime > 0.0
  }

  /** The stage changes the shell allows. */
  predicate Transition(from: AppStage, to: AppStage)
  {
    || (from == Onboarding && to == MosaicMirror)
    || (from == MosaicMirror && to == Onboarding)
    || (from == MosaicMirror && to == DayBuilder)
    || (from == DayBuilder && to == Onboarding)
  }

  /** The shell's standing facts: loading happens only on the onboarding
      screen, and any other screen has a roast to show. */
  predicate Consistent(s: AppState)
  {
    && (s.loading ==> s.stage == Onboarding)
    && (s.stage != Onboarding ==> s.roast.Some?)
  }

  /** One event. Controls exist only on their own screen (and the submit
      button only while enabled), so an event whose control is not on screen
      changes nothing; a roast arrives only while a submit is loading. */
  function Step(s: AppState, e: Event): (s': AppState)
    ensures Consistent(s) && s'.stage != s.stage ==> Transition(s.stage, s'.stage)
    ensures s'.stats.age != s.stats.age ==> e.AgeEdited? && s.stage == Onboarding
    ensures s'.stats.dailyScreenTime != s.stats.dailyScreenTime ==> e.ScreenTimeEdited? && s.stage == Onboarding
    ensures s'.roast != s.roast ==> e.RoastReceived? && s'.roast == Some(e.result)
    ensures !s.loading && s'.loading ==> e.SubmitClicked? && SubmitEnabled(s) && s.stage == Onboarding
    ensures s.loading && !s'.loading ==> e.RoastReceived? && s'.stage == MosaicMirror
  {
    match e
    case AgeEdited(parsed) =>
      if s.stage == Onboarding then s.(stats := s.stats.(age := parsed.GetOr(0))) else s
    case ScreenTimeEdited(parsed) =>
      if s.stage == Onboarding then s.(stats := s.stats.(dailyScreenTime := parsed.GetOr(0.0))) else s
    case SubmitClicked =>
      if s.stage == Onboarding && SubmitEnabled(s) then s.(loading := true) else s
    case RoastReceived(result) =>
      if s.loading then s.(roast := Some(result), loading := false, stage := MosaicMirror) else s
    case BackClicked =>
      if s.stage == MosaicMirror then s.(stage := Onboarding) else s
    case NextClicked =>
      if s.stage == MosaicMirror then s.(stage := DayBuilder) else s
    case RestartClicked =>
      if s.stage == DayBuilder then s.(stage := Onboarding) else s
  }

  /** Every allowed stage change is made by its control. */
  lemma TransitionsTaken(s: AppState, r: RoastResponse)
    ensures s.loading ==>
      Step(s, RoastReceived(r)) == s.(roast := Some(r), loading := false, stage := MosaicMirror)
    ensures s.stage == MosaicMirror ==> Step(s, BackClicked) == s.(stage := Onboarding)
    ensures s.stage == MosaicMirror ==> Step(s, NextClicked) == s.(stage := DayBuilder)
    ensures s.stage == DayBuilder ==> Step(s, RestartClicked) == s.(stage := Onboarding)
  {
  }

  /** A submit click starts loading exactly when it is on the onboarding
      screen, nothing is loading yet and the screen time is positive;
      otherwise it does nothing. */
  lemma SubmitGuard(s: AppState)
    ensures Step(s, SubmitClicked).loading != s.loading <==>
      s.stage == Onboarding && !s.loading && s.stats.dailyScreenTime > 0.0
    ensures Step(s, SubmitClicked).loading == s.loading ==> Step(s, SubmitClicked) == s
    ensures Step(s, SubmitClicked).stage == s.stage && Step(s, SubmitClicked).stats == s.stats
  {
  }

  /** Editing a field changes that field of the stats only: to the number
      typed, or to 0 when the text is not a number. */
  lemma EditsTouchOneField(s: AppState, age: Option<int>, hours: Option<real>)
    requires s.stage == Onboarding
    ensures age.Some? ==> Step(s, AgeEdited(age)) == s.(stats := UserStats(age.value, s.stats.dailyScreenTime))
    ensures age.None? ==> Step(s, AgeEdited(age)) == s.(stats := UserStats(0, s.stats.dailyScreenTime))
    ensures hours.Some? ==> Step(s, ScreenTimeEdited(hours)) == s.(stats := UserStats(s.stats.age, hours.value))
    ensures hours.None? ==> Step(s, ScreenTimeEdited(hours)) == s.(stats := UserStats(s.stats.age, 0.0))
  {
  }

  /** Every event keeps the shell consistent. */
  lemma StepKeepsConsistent(s: AppState, e: Event)
    requires Consistent(s)
    ensures Consistent(Step(s, e))
  {
  }

  /** The state after a sequence of events. */
  function Run(s: AppState, events: seq<Event>): AppState
    decreases |events|
  {
    if events == [] then s else Run(Step(s, events[0]), events[1..])
  }

  /** Any sequence of events from the first render leaves the shell consistent. */
  lemma {:induction false} RunKeepsConsistent(s: AppState, events: seq<Event>)
    requires Consistent(s)
    ensures Consistent(Run(s, events))
    decreases |events|
  {
    if events != [] {
      StepKeepsConsistent(s, events[0]);
      RunKeepsConsistent(Step(s, events[0]), events[1..]);
    }
  }

  /** Leaving the onboarding screen needs a submit: from an onboarding state
      with nothing loading, no sequence of events without a submit click
      reaches another screen. */
  lemma {:induction false} LeavingOnboardingNeedsSubmit(s: AppState, events: seq<Event>)
    requires s.stage == Onboarding && !s.loading
    requires SubmitClicked !in events
    ensures Run(s, events).stage == Onboarding && !Run(s, events).loading
    decreases |events|
  {
    if events != [] {
      assert events[0] != SubmitClicked;
      assert SubmitClicked !in events[1..];
      LeavingOnboardingNeedsSubmit(Step(s, events[0]), events[1..]);
    }
  }

  /** The first render is consistent: the onboarding screen, the default
      stats, no roast and nothing loading. */
  lemma InitialIsConsistent()
    ensures Consistent(InitialState)
    ensures InitialState.stage == Onboarding && InitialState.stats == UserStats(25, 4.0)
    ensures InitialState.roast.None? && !InitialState.loading
  {
  }

  /** Years of remaining life (to 80) spent on screens, before formatting. */
  function LostYears(stats: UserStats): (years: real)
    ensures years == (80 - stats.age) as real * stats.dailyScreenTime / 24.0
  {
    var remainingLife := (80 - stats.age) as real;
    var totalHours := remainingLife * 365.0 * stats.dailyScreenTime;
    totalHours / 24.0 / 365.0
  }

  /** Lost years vanish at age 80 and are never negative for a younger user.
      Up to 80 they grow with screen time; past 80 (the age field accepts up
      to 100) they are negative and shrink as screen time grows. */
  lemma LostYearsShape(stats: UserStats, moreHours: real)
    requires moreHours >= stats.dailyScreenTime
    ensures stats.age == 80 ==> LostYears(stats) == 0.0
    ensures stats.age <= 80 && stats.dailyScreenTime >= 0.0 ==> LostYears(stats) >= 0.0
    ensures stats.age <= 80 ==> LostYears(stats) <= LostYears(stats.(dailyScreenTime := moreHours))
    ensures stats.age >= 80 ==> LostYears(stats.(dailyScreenTime := moreHours)) <= LostYears(stats)
  {
    var r := (80 - stats.age) as real;
    if stats.age <= 80 {
      assert r * stats.dailyScreenTime <= r * moreHours;
    } else {
      assert r * moreHours <= r * stats.dailyScreenTime;
    }
  }

  /** The same quantity as the roast request phrases it. */
  function RequestLostYears(age: int, hours: real): real
  {
    hours * 365.0 * (80 - age) as real / 24.0 / 365.0
  }

  /** The onboarding card and the roast request agree on the years lost. */
  lemma LostYearsAgree(stats: UserStats)
    ensures LostYears(stats) == RequestLostYears(stats.age, stats.dailyScreenTime)
  {
  }
}

=== FILE: day_allocator.dfy ===
/** The "design your ideal day" screen: five category sliders, the hours left
    over ("doomscroll" time), the analysis text chosen after the sliders settle,
    and the stacked bar that shows the day. */
module DayAllocator {

  import opened Wrappers
  import opened JsMath

  /** The five slider categories. */
  datatype Category = Sleep | Work | Commute | Social | Hobbies

  /** The categories in the order the sliders and the bar list them, which is
      also the key order of the allocation record. */
  const Categories: seq<Category> := [Sleep, Work, Commute, Social, Hobbies]

  /** Hours given to each category. */
  datatype Allocation = Allocation(sleep: real, work: real, commute: real, social: real, hobbies: real)
  {
    function Hours(c: Category): real
    {
      match c
      case Sleep => sleep
      case Work => work
      case Commute => commute
      case Social => social
      case Hobbies => hobbies
    }

    /** The record's values in key order. */
    function Values(): (vs: seq<real>)
      ensures |vs| == |Categories|
      ensures forall i :: 0 <= i < |vs| ==> vs[i] == Hours(Categories[i])
    {
      [sleep, work, commute, social, hobbies]
    }
  }

  /** The allocation the screen opens with. */
  const InitialAllocation := Allocation(7.0, 8.0, 1.0, 2.0, 1.0)

  // ---------------------------------------------------------------------------
  // Totals
  // ---------------------------------------------------------------------------

  /** Left fold with `+` from accumulator `acc`, in the order of `vs`. */
  function FoldSum(vs: seq<real>, acc: real): real
    decreases |vs|
  {
    if vs == [] then acc else FoldSum(vs[1..], acc + vs[0])
  }

  /** Sum of a sequence, right to left. */
  function Sum(vs: seq<real>): real
    decreases |vs|
  {
    if vs == [] then 0.0 else vs[0] + Sum(vs[1..])
  }

  /** The sum of five numbers, spelled out. */
  lemma SumOfFive(vs: seq<real>)
    requires |vs| == 5
    ensures Sum(vs) == vs[0] + vs[1] + vs[2] + vs[3] + vs[4]
  {
    assert Sum(vs[4..]) == vs[4] + Sum(vs[5..]);
    assert Sum(vs[3..]) == vs[3] + Sum(vs[4..]);
    assert Sum(vs[2..]) == vs[2] + Sum(vs[3..]);
    assert Sum(vs[1..]) == vs[1] + Sum(vs[2..]);
    assert vs[1..][1..] == vs[2..] && vs[2..][1..] == vs[3..] && vs[3..][1..] == vs[4..] && vs[4..][1..] == vs[5..];
  }

  /** Folding from an accumulator adds the sum of the sequence to it. */
  lemma {:induction false} FoldSumIsSum(vs: seq<real>, acc: real)
    ensures FoldSum(vs, acc) == acc + Sum(vs)
    decreases |vs|
  {
    if vs != [] {
      FoldSumIsSum(vs[1..], acc + vs[0]);
    }
  }

  /** The hours allocated in all, folded over the record's values from 0. */
  function TotalAllocated(a: Allocation): (t: real)
    ensures t == a.sleep + a.work + a.commute + a.social + a.hobbies
  {
    var vs := a.Values();
    FoldSumIsSum(vs, 0.0);
    SumOfFive(vs);
    FoldSum(vs, 0.0)
  }

  /** Hours of the day left unallocated, never negative. */
  function DoomscrollTime(total: real): (d: real)
    ensures d >= 0.0
    ensures total <= 24.0 ==> d + total == 24.0
    ensures total >= 24.0 ==> d == 0.0
  {
    Max(0.0, 24.0 - total)
  }

  /** More than 24 hours allocated. */
  predicate IsOverbooked(total: real)
  {
    total > 24.0
  }

  /** An overbooked day has no doomscroll time; doomscroll time means the day
      is not overbooked; both are absent exactly on a 24-hour allocation. */
  lemma OverbookedVersusDoomscroll(total: real)
    ensures IsOverbooked(total) ==> DoomscrollTime(total) == 0.0
    ensures DoomscrollTime(total) > 0.0 ==> !IsOverbooked(total)
    ensures (DoomscrollTime(total) == 0.0 && !IsOverbooked(total)) <==> total == 24.0
  {
  }

  /** The opening allocation covers 19 hours and leaves five to doomscroll. */
  lemma InitialAllocationTotals()
    ensures TotalAllocated(InitialAllocation) == 19.0
    ensures DoomscrollTime(TotalAllocated(InitialAllocation)) == 5.0
    ensures !IsOverbooked(TotalAllocated(InitialAllocation))
  {
  }

  // ---------------------------------------------------------------------------
  // Slider changes
  // ---------------------------------------------------------------------------

  /** A number written with one decimal and read back: the nearest whole
      number of tenths, halves rounded away from zero. */
  function RoundTenth(v: real): (r: real)
    ensures -0.05 <= r - v <= 0.05
    ensures (r * 10.0).Floor as real == r * 10.0
    ensures v >= 0.0 ==> r >= 0.0
    ensures v <= 0.0 ==> r <= 0.0
  {
    var n := (Abs(v) * 10.0 + 0.5).Floor;
    TenthsOnGrid(n);
    if v >= 0.0 then n as real / 10.0 else -(n as real / 10.0)
  }

  /** n tenths, times ten, is the whole number n. */
  lemma TenthsOnGrid(n: int)
    ensures (n as real / 10.0 * 10.0).Floor == n
    ensures (-(n as real / 10.0) * 10.0).Floor == -n
  {
    assert n as real / 10.0 * 10.0 == n as real;
    assert -(n as real / 10.0) * 10.0 == (-n) as real;
  }

  /** A whole number of tenths is kept exactly. */
  lemma RoundTenthKeepsTenths(n: int)
    ensures RoundTenth(n as real / 10.0) == n as real / 10.0
  {
    var v := n as real / 10.0;
    if v >= 0.0 {
      assert Abs(v) * 10.0 + 0.5 == n as real + 0.5;
      assert (Abs(v) * 10.0 + 0.5).Floor == n;
    } else {
      assert Abs(v) * 10.0 + 0.5 == (-n) as real + 0.5;
      assert (Abs(v) * 10.0 + 0.5).Floor == -n;
    }
  }

  /** A value exactly halfway between two tenths goes to the one farther
      from zero, on either side of zero. */
  lemma RoundTenthTies(n: nat)
    ensures RoundTenth((2 * n + 1) as real / 20.0) == (n + 1) as real / 10.0
    ensures RoundTenth(-((2 * n + 1) as real / 20.0)) == -((n + 1) as real / 10.0)
  {
    var v := (2 * n + 1) as real / 20.0;
    assert Abs(v) * 10.0 + 0.5 == (n + 1) as real;
    assert Abs(-v) * 10.0 + 0.5 == (n + 1) as real;
  }

  /** Rounding twice is rounding once. */
  lemma RoundTenthIdempotent(v: real)
    ensures RoundTenth(RoundTenth(v)) == RoundTenth(v)
  {
    var r := RoundTenth(v);
    var n := (r * 10.0).Floor;
    assert r == n as real / 10.0;
    RoundTenthKeepsTenths(n);
  }

  /** Every value the slider offers (0 to 16 in steps of 0.5) is stored as is. */
  lemma SliderValuesStoredExactly(steps: int)
    requires 0 <= steps <= 32
    ensures RoundTenth(steps as real / 2.0) == steps as real / 2.0
  {
    assert steps as real / 2.0 == (5 * steps) as real / 10.0;
    RoundTenthKeepsTenths(5 * steps);
  }

  /** A slider for category `c` moved to `value`. */
  function HandleChange(a: Allocation, c: Category, value: real): (a': Allocation)
    ensures a'.Hours(c) == RoundTenth(value)
    ensures forall other :: other != c ==> a'.Hours(other) == a.Hours(other)
  {
    var v := RoundTenth(value);
    match c
    case Sleep => a.(sleep := v)
    case Work => a.(work := v)
    case Commute => a.(commute := v)
    case Social => a.(social := v)
    case Hobbies => a.(hobbies := v)
  }

  /** A slider change moves the total by exactly the change of its category. */
  lemma HandleChangeTotal(a: Allocation, c: Category, value: real)
    ensures TotalAllocated(HandleChange(a, c, value))
         == TotalAllocated(a) - a.Hours(c) + RoundTenth(value)
  {
  }

  // ---------------------------------------------------------------------------
  // Analysis text
  // ---------------------------------------------------------------------------

  const OverbookedText := "You have broken the laws of physics. 24 hours only."
  const PackedText := "A perfectly packed day. Suspiciously productive."

  /** What the settled screen does about its analysis line. */
  datatype Analysis =
    | AskForRoast(doomscrollHours: real)   // ask the text service about the leftover hours
    | Overbooked                           // the fixed physics text
    | PerfectlyPacked                      // the fixed packed-day text

  /** The three-way choice made once the sliders settle. */
  function ChooseAnalysis(doomscroll: real, overbooked: bool): (an: Analysis)
    ensures an.AskForRoast? <==> doomscroll > 0.5 && !overbooked
    ensures an.Overbooked? <==> overbooked
    ensures an.PerfectlyPacked? <==> !overbooked && doomscroll <= 0.5
    ensures an.AskForRoast? ==> an.doomscrollHours == doomscroll
  {
    if doomscroll > 0.5 && !overbooked then AskForRoast(doomscroll)
    else if overbooked then Overbooked
    else PerfectlyPacked
  }

  /** The analysis of an allocation. */
  function AnalysisOf(a: Allocation): Analysis
  {
    var total := TotalAllocated(a);
    ChooseAnalysis(DoomscrollTime(total), IsOverbooked(total))
  }

  /** In terms of the total: the service is asked below 23.5 hours, the
      physics text shows above 24, the packed text from 23.5 to 24. */
  lemma AnalysisByTotal(a: Allocation)
    ensures AnalysisOf(a).AskForRoast? <==> TotalAllocated(a) < 23.5
    ensures AnalysisOf(a).Overbooked? <==> TotalAllocated(a) > 24.0
    ensures AnalysisOf(a).PerfectlyPacked? <==> 23.5 <= TotalAllocated(a) <= 24.0
  {
  }

  /** The analysis line that the settled timer's own choice sets, given what
      the text service answered. */
  function AnalysisText(an: Analysis, serviceAnswer: string): (text: string)
    ensures an.Overbooked? ==> text == OverbookedText
    ensures an.PerfectlyPacked? ==> text == PackedText
    ensures an.AskForRoast? ==> text == serviceAnswer
  {
    match an
    case AskForRoast(_) => serviceAnswer
    case Overbooked => OverbookedText
    case PerfectlyPacked => PackedText
  }

  /** The line the settled timer's choice sets, by total: the service's answer
      below 23.5 hours, the packed text from 23.5 to 24, the physics text above.
      A service call from an earlier settle that is still waiting is not part
      of this model. */
  lemma AnalysisLineByTotal(a: Allocation, serviceAnswer: string)
    ensures TotalAllocated(a) < 23.5 ==> AnalysisText(AnalysisOf(a), serviceAnswer) == serviceAnswer
    ensures 23.5 <= TotalAllocated(a) <= 24.0 ==> AnalysisText(AnalysisOf(a), serviceAnswer) == PackedText
    ensures TotalAllocated(a) > 24.0 ==> AnalysisText(AnalysisOf(a), serviceAnswer) == OverbookedText
    ensures TotalAllocated(a) < 23.5 ==>
      AnalysisOf(a) == AskForRoast(24.0 - TotalAllocated(a))
  {
    AnalysisByTotal(a);
  }

  // ---------------------------------------------------------------------------
  // The stacked bar
  // ---------------------------------------------------------------------------

  /** Percentage of the bar taken by `hours` of a 24-hour day. */
  function BarWidth(hours: real): real
  {
    hours / 24.0 * 100.0
  }

  /** Width of the red doomscroll segment, present only when there are
      leftover hours and the day is not overbooked. */
  function DoomscrollSegment(a: Allocation): (w: Option<real>)
    ensures w.Some? <==> TotalAllocated(a) < 24.0
    ensures w.Some? ==> w.value > 0.0 && w.value == BarWidth(DoomscrollTime(TotalAllocated(a)))
  {
    var total := TotalAllocated(a);
    var doom := DoomscrollTime(total);
    if doom > 0.0 && !IsOverbooked(total) then Some(BarWidth(doom)) else None
  }

  /** Widths of the category segments in bar order: together they take the
      allocated share of the day. */
  function CategoryWidths(a: Allocation): (ws: seq<real>)
    ensures |ws| == |Categories|
    ensures forall i :: 0 <= i < |ws| ==> ws[i] == BarWidth(a.Hours(Categories[i]))
    ensures Sum(ws) == TotalAllocated(a) / 24.0 * 100.0
  {
    var ws := seq(|Categories|, i requires 0 <= i < |Categories| => BarWidth(a.Hours(Categories[i])));
    SumOfFive(ws);
    ws
  }

  /** Total width of everything the bar draws. */
  function BarTotal(a: Allocation): real
  {
    Sum(CategoryWidths(a)) + DoomscrollSegment(a).GetOr(0.0)
  }

  /** A day that is not overbooked fills the bar exactly; an overbooked one
      overflows it. */
  lemma BarFillsDay(a: Allocation)
    ensures !IsOverbooked(TotalAllocated(a)) ==> BarTotal(a) == 100.0
    ensures IsOverbooked(TotalAllocated(a)) ==> BarTotal(a) > 100.0
  {
  }
}

=== FILE: js_math.dfy ===
/** The few `Math` functions the application uses, on exact reals. */
module JsMath {

  /** `Math.max` of two numbers. */
  function Max(a: real, b: real): (m: real)
    ensures m >= a && m >= b && (m == a || m == b)
  {
    if a >= b then a else b
  }

  /** `Math.min` of two numbers. */
  function Min(a: real, b: real): (m: real)
    ensures m <= a && m <= b && (m == a || m == b)
  {
    if a <= b then a else b
  }

  /** `Math.abs`. */
  function Abs(x: real): (y: real)
    ensures y >= 0.0 && (y == x || y == -x)
  {
    if x < 0.0 then -x else x
  }
}

=== FILE: mosaic.dfy ===
/** The mirror screen's per-frame mosaic renderer.

    One animation-frame callback samples the camera frame at one RGB value per
    grid cell, blanks the canvas, and draws each cell that is not too dark as a
    flat square or, stochastically, as a glyph; at high chaos it may then tear a
    horizontal strip of the canvas sideways. Everything the host supplies (the
    camera frame, the sampled buffer, the clock-driven sine, the random number
    generator) is an explicit input, and drawing is an emitted list of `DrawOp`s. */
module Mosaic {

  import opened JsMath

  /** One channel of a canvas image buffer. */
  type Byte = x: int | 0 <= x < 256

  /** The twelve pictograms of the "brainrot" glyph set. */
  const BrainrotSymbols: seq<string> := [
    "\U{1F4F1}", "\U{1F441}\U{FE0F}", "\U{1F480}", "\U{1F921}", "\U{1F916}", "\U{1F4A9}",
    "\U{1F47E}", "\U{1F4B8}", "\U{1F48A}", "\U{1F6A7}", "\U{1F512}", "\U{1F4C9}"
  ]

  /** The six short strings of the tech-logo glyph set. */
  const TechLogoSymbols: seq<string> := ["X", "f", "G", "in", "tt", "yt"]

  // ---------------------------------------------------------------------------
  // Chaos level and cell size
  // ---------------------------------------------------------------------------

  /** Daily screen time mapped to a chaos level: one twelfth of the hours,
      clamped to [0.1, 1]. */
  function ChaosLevel(screenTime: real): (c: real)
    ensures 0.1 <= c <= 1.0
    ensures screenTime <= 1.2 ==> c == 0.1
    ensures screenTime >= 12.0 ==> c == 1.0
    ensures 1.2 <= screenTime <= 12.0 ==> c * 12.0 == screenTime
  {
    Min(Max(screenTime / 12.0, 0.1), 1.0)
  }

  /** More screen time never means less chaos. */
  lemma ChaosMonotone(t1: real, t2: real)
    requires t1 <= t2
    ensures ChaosLevel(t1) <= ChaosLevel(t2)
  {
  }

  /** Side of a mosaic cell in pixels: higher chaos gives smaller cells. */
  function CellSize(chaos: real): (n: int)
    ensures n as real <= 20.0 - chaos * 10.0 < n as real + 1.0
    ensures 0.1 <= chaos <= 1.0 ==> 10 <= n <= 19
  {
    (20.0 - chaos * 10.0).Floor
  }

  /** More chaos never means larger cells. */
  lemma CellSizeAntitone(c1: real, c2: real)
    requires c1 <= c2
    ensures CellSize(c2) <= CellSize(c1)
  {
    var n1, n2 := CellSize(c1), CellSize(c2);
    assert n2 as real <= 20.0 - c2 * 10.0 <= 20.0 - c1 * 10.0 < n1 as real + 1.0;
  }

  /** The cell size the mirror uses for a given screen time. */
  function CellSizeFor(screenTime: real): (n: nat)
    ensures 10 <= n <= 19
  {
    CellSize(ChaosLevel(screenTime))
  }

  /** Zero hours: minimum chaos, the coarsest grid, and no tearing. */
  lemma NoScreenTimeScenario()
    ensures ChaosLevel(0.0) == 0.1
    ensures CellSizeFor(0.0) == 19
    ensures !TearEligible(ChaosLevel(0.0))
  {
    assert CellSize(0.1) == 19;
  }

  /** Twelve hours: maximum chaos, the finest grid, tearing possible. */
  lemma TwelveHoursScenario()
    ensures ChaosLevel(12.0) == 1.0
    ensures CellSizeFor(12.0) == 10
    ensures TearEligible(ChaosLevel(12.0))
  {
    assert CellSize(1.0) == 10;
  }

  /** The "attention leakage" banner is shown when chaos exceeds one half. */
  predicate LeakageWarning(chaos: real) { chaos > 0.5 }

  /** The banner appears exactly when screen time exceeds six hours. */
  lemma LeakageWarningThreshold(screenTime: real)
    ensures LeakageWarning(ChaosLevel(screenTime)) <==> screenTime > 6.0
  {
  }

  /** The glitch tear is only ever attempted above chaos 0.6. */
  predicate TearEligible(chaos: real) { chaos > 0.6 }

  /** Tearing is possible exactly when screen time exceeds 7.2 hours. */
  lemma TearThreshold(screenTime: real)
    ensures TearEligible(ChaosLevel(screenTime)) <==> screenTime > 7.2
  {
  }

  // ---------------------------------------------------------------------------
  // Grid geometry and the sampled buffer
  // ---------------------------------------------------------------------------

  /** A mosaic grid: `cols` by `rows` cells of side `cellSize` pixels. */
  datatype Grid = Grid(cols: nat, rows: nat, cellSize: nat)

  /** The largest grid of whole cells that fits a `width` by `height` canvas. */
  function GridOf(width: nat, height: nat, cellSize: nat): (g: Grid)
    requires cellSize > 0
    ensures g.cellSize == cellSize
    ensures g.cols * cellSize <= width < (g.cols + 1) * cellSize
    ensures g.rows * cellSize <= height < (g.rows + 1) * cellSize
  {
    Grid(width / cellSize, height / cellSize, cellSize)
  }

  /** Offset of the red channel of cell (x, y) in a row-major RGBA buffer. */
  function PixelIndex(cols: nat, x: nat, y: nat): nat
  {
    (y * cols + x) * 4
  }

  /** a <= b scales by a non-negative factor. */
  lemma MulMono(a: int, b: int, c: nat)
    requires a <= b
    ensures a * c <= b * c
  {
    assert b * c - a * c == (b - a) * c;
  }

  /** Euclidean quotient and remainder are determined by any decomposition. */
  lemma DivModUnique(n: int, c: int, q: int, r: int)
    requires c > 0 && 0 <= r < c && n == q * c + r
    ensures n / c == q && n % c == r
  {
    var q', r' := n / c, n % c;
    assert (q - q') * c == r' - r;
    if q' < q {
      MulMono(1, q - q', c);
    } else if q < q' {
      MulMono(1, q' - q, c);
    }
  }

  /** Cell (x, y) has row-major number y * cols + x, inside the grid, and the
      number decodes back to (x, y). */
  lemma {:induction false} RowMajorCell(cols: nat, rows: nat, x: nat, y: nat)
    requires x < cols && y < rows
    ensures y * cols + x < cols * rows
    ensures (y * cols + x) / cols == y && (y * cols + x) % cols == x
  {
    MulMono(y + 1, rows, cols);
    DivModUnique(y * cols + x, cols, y, x);
  }

  /** Every row-major number below cols * rows names a cell of the grid. */
  lemma {:induction false} CellOfIndex(cols: nat, rows: nat, n: nat)
    requires n < cols * rows
    ensures cols > 0 && n % cols < cols && n / cols < rows
  {
    if n / cols >= rows {
      MulMono(rows, n / cols, cols);
    }
  }

  /** The row-major numbering is a bijection between [0, cols * rows) and the
      cells: number n is cell (x, y) exactly when n == y * cols + x, so distinct
      cells have distinct numbers. */
  lemma {:induction false} RowMajorBijection(cols: nat, rows: nat, x: nat, y: nat, n: nat)
    requires x < cols && y < rows && n < cols * rows
    ensures (n % cols == x && n / cols == y) <==> n == y * cols + x
  {
    RowMajorCell(cols, rows, x, y);
  }

  /** All four channels of cell (x, y) lie inside the cols * rows * 4 buffer. */
  lemma {:induction false} PixelInBuffer(cols: nat, rows: nat, x: nat, y: nat)
    requires x < cols && y < rows
    ensures PixelIndex(cols, x, y) + 3 < 4 * (cols * rows)
  {
    RowMajorCell(cols, rows, x, y);
  }

  // ---------------------------------------------------------------------------
  // Drawing operations and the per-cell decision
  // ---------------------------------------------------------------------------

  /** A canvas fill colour. */
  datatype Color = Rgb(r: Byte, g: Byte, b: Byte)

  /** The background colour `#000`. */
  const Black := Rgb(0, 0, 0)

  /** What a frame asks the canvas to draw. */
  datatype DrawOp =
    | FillRect(left: int, top: int, width: int, height: int, color: Color)
    | FillText(symbol: string, centerX: real, centerY: real, fontSize: int, color: Color)
      /** Copy the full-width strip at `sliceY` of height `sliceHeight` onto
          itself, shifted right by `offset` (a negative offset shifts left). */
    | CopyStrip(sliceY: real, sliceHeight: real, offset: real, stripWidth: int)

  /** Three times a cell's brightness. */
  function ChannelSum(c: Color): int { c.r + c.g + c.b }

  /** A cell's brightness: the mean of its three channels. */
  function Brightness(c: Color): real { ChannelSum(c) as real / 3.0 }

  /** The two glyph sets a bright cell can draw from. */
  datatype GlyphSet = Brainrot | TechLogos

  /** The symbols of a glyph set. */
  function Symbols(s: GlyphSet): (syms: seq<string>)
    ensures |syms| > 0
  {
    match s
    case Brainrot => BrainrotSymbols
    case TechLogos => TechLogoSymbols
  }

  /** How a cell is rendered. */
  datatype CellMode = Dark | Block | Glyph(glyphSet: GlyphSet)

  /** The decision for a cell of colour `c`: dark cells are skipped; a cell is
      a glyph only when it is bright and the first draw falls under
      0.8 * chaos; the second draw picks the set. */
  function ModeOf(c: Color, chaos: real, modeDraw: real, setDraw: real): (m: CellMode)
    ensures m.Dark? <==> ChannelSum(c) < 90
    ensures m.Glyph? <==> ChannelSum(c) > 300 && modeDraw < chaos * 0.8
    ensures m.Glyph? ==> (m.glyphSet.Brainrot? <==> setDraw > 0.5)
  {
    if Brightness(c) < 30.0 then Dark
    else if modeDraw < chaos * 0.8 && Brightness(c) > 100.0 then
      Glyph(if setDraw > 0.5 then Brainrot else TechLogos)
    else Block
  }

  /** The symbol index derived from the sine seed, valid for any seed. */
  function SymbolIndex(seed: real, len: nat): (i: nat)
    requires len > 0
    ensures i < len
  {
    (Abs(seed * 100.0)).Floor % len
  }

  /** The glyph drawn for a cell whose set is `s` and whose seed is `seed`. */
  function GlyphFor(s: GlyphSet, seed: real): (sym: string)
    ensures sym in Symbols(s)
  {
    Symbols(s)[SymbolIndex(seed, |Symbols(s)|)]
  }

  /** Drawing outcome: the operations emitted and the position reached in the
      stream of random draws. */
  datatype Drawn = Drawn(ops: seq<DrawOp>, cursor: nat)

  /** One cell at column x, row y with colour c, sine seed `seed`, reading the
      random stream from position k. The first draw is consumed by every cell
      that is not dark, the second only by a glyph. */
  function DrawCell(g: Grid, chaos: real, x: nat, y: nat, c: Color, seed: real,
                    rand: nat -> real, k: nat): (d: Drawn)
    requires g.cellSize > 0
    // dark cells leave the background showing and consume no draw
    ensures ChannelSum(c) < 90 ==> d == Drawn([], k)
    // dim cells are always a flat square one pixel short of the cell
    ensures 90 <= ChannelSum(c) <= 300 ==>
      d == Drawn([FillRect(x * g.cellSize, y * g.cellSize, g.cellSize - 1, g.cellSize - 1, c)], k + 1)
    // bright cells are one op: a glyph exactly when the first draw is under 0.8 * chaos
    ensures ChannelSum(c) > 300 ==>
      |d.ops| == 1 && (d.ops[0].FillText? <==> rand(k) < chaos * 0.8)
    ensures forall i :: 0 <= i < |d.ops| && d.ops[i].FillText? ==>
      d.cursor == k + 2 && d.ops[i].fontSize == g.cellSize && d.ops[i].color == c &&
      (d.ops[i].symbol in (if rand(k + 1) > 0.5 then BrainrotSymbols else TechLogoSymbols))
    ensures forall i :: 0 <= i < |d.ops| && d.ops[i].FillRect? ==> d.cursor == k + 1
    // a bright cell that loses the first draw is the same square as a dim cell
    ensures ChannelSum(c) > 300 && rand(k) >= chaos * 0.8 ==>
      d == Drawn([FillRect(x * g.cellSize, y * g.cellSize, g.cellSize - 1, g.cellSize - 1, c)], k + 1)
    // a glyph is centred on its cell and picked from the set the second draw chose
    ensures ChannelSum(c) > 300 && rand(k) < chaos * 0.8 ==>
      d == Drawn([FillText(GlyphFor(if rand(k + 1) > 0.5 then Brainrot else TechLogos, seed),
                           (x * g.cellSize) as real + g.cellSize as real / 2.0,
                           (y * g.cellSize) as real + g.cellSize as real / 2.0,
                           g.cellSize, c)], k + 2)
  {
    var cs := g.cellSize;
    match ModeOf(c, chaos, rand(k), rand(k + 1))
    case Dark => Drawn([], k)
    case Block => Drawn([FillRect(x * cs, y * cs, cs - 1, cs - 1, c)], k + 1)
    case Glyph(gs) =>
      var half := cs as real / 2.0;
      Drawn([FillText(GlyphFor(gs, seed), (x * cs) as real + half, (y * cs) as real + half, cs, c)], k + 2)
  }

  // ---------------------------------------------------------------------------
  // The cell pass over a whole grid
  // ---------------------------------------------------------------------------

  /** Everything one cell pass reads: the grid, the chaos level, the sampled
      RGBA buffer, the sine `wave` (t -> sin(t + time)) and the random stream. */
  datatype RenderPass = RenderPass(grid: Grid, chaos: real, pixels: seq<Byte>,
                                   wave: int -> real, rand: nat -> real)
  {
    /** The buffer holds exactly four bytes per cell, as the image-data read
        of a cols by rows region does. */
    predicate Valid() {
      grid.cellSize > 0 && |pixels| == 4 * (grid.cols * grid.rows)
    }

  }

  /** Colour of cell (x, y) read from the buffer. */
  function ColorAt(p: RenderPass, x: nat, y: nat): Color
    requires p.Valid() && x < p.grid.cols && y < p.grid.rows
  {
    PixelInBuffer(p.grid.cols, p.grid.rows, x, y);
    var i := PixelIndex(p.grid.cols, x, y);
    Rgb(p.pixels[i], p.pixels[i + 1], p.pixels[i + 2])
  }

  /** Cell (x, y) of the pass, with its sampled colour and its seed
      sin(x * y + time), drawn from stream position k. */
  function DrawCellAt(p: RenderPass, x: nat, y: nat, k: nat): Drawn
    requires p.Valid() && x < p.grid.cols && y < p.grid.rows
  {
    DrawCell(p.grid, p.chaos, x, y, ColorAt(p, x, y), p.wave(x * y), p.rand, k)
  }

  /** Reference definition of row y of the pass: its first x cells, left to
      right, each continuing the random stream where the previous stopped. */
  function RenderRow(p: RenderPass, y: nat, x: nat, k: nat): Drawn
    requires p.Valid() && y < p.grid.rows && x <= p.grid.cols
    decreases x
  {
    if x == 0 then Drawn([], k)
    else
      var before := RenderRow(p, y, x - 1, k);
      var cell := DrawCellAt(p, x - 1, y, before.cursor);
      Drawn(before.ops + cell.ops, cell.cursor)
  }

  /** Reference definition of the pass: its first y rows, top to bottom, so
      cells are taken in row-major order. */
  function RenderRows(p: RenderPass, y: nat, k: nat): Drawn
    requires p.Valid() && y <= p.grid.rows
    decreases y
  {
    if y == 0 then Drawn([], k)
    else
      var before := RenderRows(p, y - 1, k);
      var row := RenderRow(p, y - 1, p.grid.cols, before.cursor);
      Drawn(before.ops + row.ops, row.cursor)
  }

  /** The inner loop of the renderer: row y, column by column. */
  method DrawMosaicRow(p: RenderPass, y: nat, k0: nat) returns (ops: seq<DrawOp>, k: nat)
    requires p.Valid() && y < p.grid.rows
    ensures Drawn(ops, k) == RenderRow(p, y, p.grid.cols, k0)
    // one operation per lit cell of the row
    ensures |ops| == LitInRow(p, y, p.grid.cols)
    // one draw per operation plus one per glyph
    ensures Accounted(Drawn(ops, k), k0)
    // squares and glyphs only, all inside the grid
    ensures forall op :: op in ops ==>
      Inside(op, p.grid.cols * p.grid.cellSize, p.grid.rows * p.grid.cellSize) && !op.CopyStrip?
  {
    ops, k := [], k0;
    var x := 0;
    while x < p.grid.cols
      invariant x <= p.grid.cols
      invariant Drawn(ops, k) == RenderRow(p, y, x, k0)
    {
      PixelInBuffer(p.grid.cols, p.grid.rows, x, y);
      var index := PixelIndex(p.grid.cols, x, y);
      var color := Rgb(p.pixels[index], p.pixels[index + 1], p.pixels[index + 2]);
      var cell := DrawCell(p.grid, p.chaos, x, y, color, p.wave(x * y), p.rand, k);
      assert cell == DrawCellAt(p, x, y, k);
      ops, k := ops + cell.ops, cell.cursor;
      x := x + 1;
    }
    RowSummary(p, y, k0);
  }

  /** What a caller may rely on about a whole row. */
  lemma RowSummary(p: RenderPass, y: nat, k0: nat)
    requires p.Valid() && y < p.grid.rows
    ensures var d := RenderRow(p, y, p.grid.cols, k0);
      && |d.ops| == LitInRow(p, y, p.grid.cols)
      && Accounted(d, k0)
      && forall op :: op in d.ops ==>
           Inside(op, p.grid.cols * p.grid.cellSize, p.grid.rows * p.grid.cellSize) && !op.CopyStrip?
  {
    RenderRowOpCount(p, y, p.grid.cols, k0);
    RenderRowAccounted(p, y, p.grid.cols, k0);
    RenderRowInsideGrid(p, y, p.grid.cols, k0);
    RenderRowNeverTears(p, y, p.grid.cols, k0);
  }

  /** The nested row/column loops of the renderer compute the reference pass. */
  method DrawMosaicCells(p: RenderPass, k0: nat) returns (ops: seq<DrawOp>, k: nat)
    requires p.Valid()
    ensures Drawn(ops, k) == RenderRows(p, p.grid.rows, k0)
    // one operation per lit cell of the frame
    ensures |ops| == LitCells(p, p.grid.rows)
    // one draw per operation plus one per glyph
    ensures Accounted(Drawn(ops, k), k0)
    // squares and glyphs only, all inside the grid
    ensures forall op :: op in ops ==>
      Inside(op, p.grid.cols * p.grid.cellSize, p.grid.rows * p.grid.cellSize) && !op.CopyStrip?
  {
    ops, k := [], k0;
    var y := 0;
    while y < p.grid.rows
      invariant y <= p.grid.rows
      invariant Drawn(ops, k) == RenderRows(p, y, k0)
    {
      var rowOps, k' := DrawMosaicRow(p, y, k);
      ops, k := ops + rowOps, k';
      y := y + 1;
    }
    FrameSummary(p, k0);
  }

  /** What a caller may rely on about the whole cell pass. */
  lemma FrameSummary(p: RenderPass, k0: nat)
    requires p.Valid()
    ensures var d := RenderRows(p, p.grid.rows, k0);
      && |d.ops| == LitCells(p, p.grid.rows)
      && Accounted(d, k0)
      && forall op :: op in d.ops ==>
           Inside(op, p.grid.cols * p.grid.cellSize, p.grid.rows * p.grid.cellSize) && !op.CopyStrip?
  {
    RenderRowsOpCount(p, p.grid.rows, k0);
    RenderRowsAccounted(p, p.grid.rows, k0);
    RenderRowsInsideGrid(p, p.grid.rows, k0);
    RenderRowsNeverTear(p, p.grid.rows, k0);
  }

  /** Number of cells among the first x of row y bright enough to be drawn. */
  function LitInRow(p: RenderPass, y: nat, x: nat): nat
    requires p.Valid() && y < p.grid.rows && x <= p.grid.cols
  {
    if x == 0 then 0
    else LitInRow(p, y, x - 1) + (if ChannelSum(ColorAt(p, x - 1, y)) >= 90 then 1 else 0)
  }

  /** Number of cells in the first y rows bright enough to be drawn. */
  function LitCells(p: RenderPass, y: nat): nat
    requires p.Valid() && y <= p.grid.rows
  {
    if y == 0 then 0 else LitCells(p, y - 1) + LitInRow(p, y - 1, p.grid.cols)
  }

  /** Number of glyphs in a list of operations. */
  function CountText(ops: seq<DrawOp>): nat
  {
    if ops == [] then 0 else CountText(ops[..|ops| - 1]) + (if ops[|ops| - 1].FillText? then 1 else 0)
  }

  /** Glyph counts add up over concatenation. */
  lemma {:induction false} CountTextAppend(a: seq<DrawOp>, b: seq<DrawOp>)
    ensures CountText(a + b) == CountText(a) + CountText(b)
    decreases |b|
  {
    if b == [] {
      assert a + b == a;
    } else {
      var b' := b[..|b| - 1];
      assert (a + b)[..|a + b| - 1] == a + b';
      CountTextAppend(a, b');
    }
  }

  /** Starting at stream position k, `d` consumed one draw per operation
      plus one more per glyph. */
  predicate Accounted(d: Drawn, k: nat)
  {
    d.cursor == k + |d.ops| + CountText(d.ops)
  }

  /** Accounting composes when one drawing continues where another stopped. */
  lemma AccountedAppend(first: Drawn, second: Drawn, k: nat)
    requires Accounted(first, k) && Accounted(second, first.cursor)
    ensures Accounted(Drawn(first.ops + second.ops, second.cursor), k)
  {
    CountTextAppend(first.ops, second.ops);
  }

  /** A cell emits one operation when lit and none when dark, and consumes one
      draw per operation plus one more for a glyph. */
  lemma {:induction false} CellAccounting(p: RenderPass, x: nat, y: nat, k: nat)
    requires p.Valid() && x < p.grid.cols && y < p.grid.rows
    ensures |DrawCellAt(p, x, y, k).ops| == if ChannelSum(ColorAt(p, x, y)) >= 90 then 1 else 0
    ensures Accounted(DrawCellAt(p, x, y, k), k)
  {
    var ops := DrawCellAt(p, x, y, k).ops;
    if ops != [] {
      assert ops[..0] == [];
    }
  }

  /** A row emits one operation per lit cell. */
  lemma {:induction false} RenderRowOpCount(p: RenderPass, y: nat, x: nat, k: nat)
    requires p.Valid() && y < p.grid.rows && x <= p.grid.cols
    ensures |RenderRow(p, y, x, k).ops| == LitInRow(p, y, x)
  {
    if x > 0 {
      RenderRowOpCount(p, y, x - 1, k);
      CellAccounting(p, x - 1, y, RenderRow(p, y, x - 1, k).cursor);
    }
  }

  /** A row consumes one draw per operation plus one per glyph. */
  lemma {:induction false} RenderRowAccounted(p: RenderPass, y: nat, x: nat, k: nat)
    requires p.Valid() && y < p.grid.rows && x <= p.grid.cols
    ensures Accounted(RenderRow(p, y, x, k), k)
  {
    if x > 0 {
      RenderRowAccounted(p, y, x - 1, k);
      var before := RenderRow(p, y, x - 1, k);
      CellAccounting(p, x - 1, y, before.cursor);
      AccountedAppend(before, DrawCellAt(p, x - 1, y, before.cursor), k);
    }
  }

  /** The pass emits exactly one operation per lit cell. */
  lemma {:induction false} RenderRowsOpCount(p: RenderPass, y: nat, k: nat)
    requires p.Valid() && y <= p.grid.rows
    ensures |RenderRows(p, y, k).ops| == LitCells(p, y)
  {
    if y > 0 {
      RenderRowsOpCount(p, y - 1, k);
      NextRowOpCount(p, y, k);
    }
  }

  /** Appending row y - 1 adds its lit cells to the count of the rows above. */
  lemma NextRowOpCount(p: RenderPass, y: nat, k: nat)
    requires p.Valid() && 0 < y <= p.grid.rows
    requires |RenderRows(p, y - 1, k).ops| == LitCells(p, y - 1)
    ensures |RenderRows(p, y, k).ops| == LitCells(p, y)
  {
    RenderRowOpCount(p, y - 1, p.grid.cols, RenderRows(p, y - 1, k).cursor);
  }

  /** The pass consumes one draw per lit cell plus one more per glyph. */
  lemma {:induction false} RenderRowsAccounted(p: RenderPass, y: nat, k: nat)
    requires p.Valid() && y <= p.grid.rows
    ensures Accounted(RenderRows(p, y, k), k)
  {
    if y > 0 {
      RenderRowsAccounted(p, y - 1, k);
      NextRowAccounted(p, y, k);
    }
  }

  /** Appending row y - 1 keeps the accounting of the rows above it. */
  lemma NextRowAccounted(p: RenderPass, y: nat, k: nat)
    requires p.Valid() && 0 < y <= p.grid.rows
    requires Accounted(RenderRows(p, y - 1, k), k)
    ensures Accounted(RenderRows(p, y, k), k)
  {
    var before := RenderRows(p, y - 1, k);
    var row := RenderRow(p, y - 1, p.grid.cols, before.cursor);
    RenderRowAccounted(p, y - 1, p.grid.cols, before.cursor);
    AccountedAppend(before, row, k);
  }

  /** Every cell darker than brightness 30. */
  predicate AllDark(p: RenderPass)
    requires p.Valid()
  {
    forall x: nat, y: nat :: 0 <= x < p.grid.cols && 0 <= y < p.grid.rows ==> ChannelSum(ColorAt(p, x, y)) < 90
  }

  /** A frame whose cells are all dark draws nothing and consumes no draw. */
  lemma DarkFrameDrawsNothing(p: RenderPass, k: nat)
    requires p.Valid() && AllDark(p)
    ensures RenderRows(p, p.grid.rows, k) == Drawn([], k)
  {
    DarkRowsCountNothing(p, p.grid.rows);
    RenderRowsOpCount(p, p.grid.rows, k);
    RenderRowsAccounted(p, p.grid.rows, k);
  }

  /** No row of an all-dark frame has a lit cell. */
  lemma {:induction false} DarkRowsCountNothing(p: RenderPass, y: nat)
    requires p.Valid() && AllDark(p) && y <= p.grid.rows
    ensures LitCells(p, y) == 0
  {
    if y > 0 {
      DarkRowsCountNothing(p, y - 1);
      DarkRowCountsNothing(p, y - 1, p.grid.cols);
    }
  }

  /** No prefix of a row of an all-dark frame has a lit cell. */
  lemma {:induction false} DarkRowCountsNothing(p: RenderPass, y: nat, x: nat)
    requires p.Valid() && AllDark(p) && y < p.grid.rows && x <= p.grid.cols
    ensures LitInRow(p, y, x) == 0
  {
    if x > 0 {
      DarkRowCountsNothing(p, y, x - 1);
      assert ChannelSum(ColorAt(p, x - 1, y)) < 90;
    }
  }

  /** An all-zero buffer makes every cell dark. */
  lemma BlackBufferIsDark(p: RenderPass)
    requires p.Valid()
    requires forall i :: 0 <= i < |p.pixels| ==> p.pixels[i] == 0
    ensures AllDark(p)
  {
    forall x: nat, y: nat | x < p.grid.cols && y < p.grid.rows
      ensures ChannelSum(ColorAt(p, x, y)) < 90
    {
      PixelInBuffer(p.grid.cols, p.grid.rows, x, y);
    }
  }

  /** An operation lies within a `width` by `height` canvas. A strip copy
      always does: the canvas clips what is shifted past its edge. */
  predicate Inside(op: DrawOp, width: int, height: int)
  {
    match op
    case FillRect(left, top, w, h, _) =>
      0 <= left && 0 <= top && 0 <= w && 0 <= h && left + w <= width && top + h <= height
    case FillText(_, cx, cy, _, _) =>
      0.0 <= cx < width as real && 0.0 <= cy < height as real
    case CopyStrip(_, _, _, _) => true
  }

  /** Both a square and a glyph of cell (x, y) stay inside the grid. */
  lemma {:induction false} CellInsideGrid(p: RenderPass, x: nat, y: nat, k: nat)
    requires p.Valid() && x < p.grid.cols && y < p.grid.rows
    ensures forall op :: op in DrawCellAt(p, x, y, k).ops ==>
      Inside(op, p.grid.cols * p.grid.cellSize, p.grid.rows * p.grid.cellSize)
  {
    var cs := p.grid.cellSize;
    CellSpan(x, p.grid.cols, cs);
    CellSpan(y, p.grid.rows, cs);
    var d := DrawCellAt(p, x, y, k);
    if d.ops != [] {
      var op := d.ops[0];
      assert d.ops == [op];
      if op.FillText? {
        assert op.centerX == (x * cs) as real + cs as real / 2.0;
        assert op.centerY == (y * cs) as real + cs as real / 2.0;
      }
    }
  }

  /** A cell at column (or row) i < n of side cs ends within n cells. */
  lemma CellSpan(i: nat, n: nat, cs: nat)
    requires i < n
    ensures i * cs + cs <= n * cs
  {
    MulMono(i + 1, n, cs);
    assert (i + 1) * cs == i * cs + cs;
  }

  /** Every operation of the first x cells of a row stays inside the grid. */
  lemma {:induction false} RenderRowInsideGrid(p: RenderPass, y: nat, x: nat, k: nat)
    requires p.Valid() && y < p.grid.rows && x <= p.grid.cols
    ensures forall op :: op in RenderRow(p, y, x, k).ops ==>
      Inside(op, p.grid.cols * p.grid.cellSize, p.grid.rows * p.grid.cellSize)
  {
    if x > 0 {
      RenderRowInsideGrid(p, y, x - 1, k);
      var before := RenderRow(p, y, x - 1, k);
      var cell := DrawCellAt(p, x - 1, y, before.cursor);
      CellInsideGrid(p, x - 1, y, before.cursor);
      assert RenderRow(p, y, x, k).ops == before.ops + cell.ops;
    }
  }

  /** Every operation of the cell pass stays inside the grid. */
  lemma {:induction false} RenderRowsInsideGrid(p: RenderPass, y: nat, k: nat)
    requires p.Valid() && y <= p.grid.rows
    ensures forall op :: op in RenderRows(p, y, k).ops ==>
      Inside(op, p.grid.cols * p.grid.cellSize, p.grid.rows * p.grid.cellSize)
  {
    if y > 0 {
      RenderRowsInsideGrid(p, y - 1, k);
      NextRowInsideGrid(p, y, k);
    }
  }

  /** Appending row y - 1 keeps every operation inside the grid. */
  lemma NextRowInsideGrid(p: RenderPass, y: nat, k: nat)
    requires p.Valid() && 0 < y <= p.grid.rows
    requires forall op :: op in RenderRows(p, y - 1, k).ops ==>
      Inside(op, p.grid.cols * p.grid.cellSize, p.grid.rows * p.grid.cellSize)
    ensures forall op :: op in RenderRows(p, y, k).ops ==>
      Inside(op, p.grid.cols * p.grid.cellSize, p.grid.rows * p.grid.cellSize)
  {
    RenderRowInsideGrid(p, y - 1, p.grid.cols, RenderRows(p, y - 1, k).cursor);
  }

  /** A row emits squares and glyphs only. */
  lemma {:induction false} RenderRowNeverTears(p: RenderPass, y: nat, x: nat, k: nat)
    requires p.Valid() && y < p.grid.rows && x <= p.grid.cols
    ensures forall op :: op in RenderRow(p, y, x, k).ops ==> !op.CopyStrip?
  {
    if x > 0 {
      RenderRowNeverTears(p, y, x - 1, k);
    }
  }

  /** The cell pass emits no strip copy. */
  lemma {:induction false} RenderRowsNeverTear(p: RenderPass, y: nat, k: nat)
    requires p.Valid() && y <= p.grid.rows
    ensures forall op :: op in RenderRows(p, y, k).ops ==> !op.CopyStrip?
  {
    if y > 0 {
      RenderRowsNeverTear(p, y - 1, k);
      NextRowNeverTears(p, y, k);
    }
  }

  /** Appending row y - 1 adds no strip copy. */
  lemma NextRowNeverTears(p: RenderPass, y: nat, k: nat)
    requires p.Valid() && 0 < y <= p.grid.rows
    requires forall op :: op in RenderRows(p, y - 1, k).ops ==> !op.CopyStrip?
    ensures forall op :: op in RenderRows(p, y, k).ops ==> !op.CopyStrip?
  {
    RenderRowNeverTears(p, y - 1, p.grid.cols, RenderRows(p, y - 1, k).cursor);
  }

  // ---------------------------------------------------------------------------
  // The glitch tear
  // ---------------------------------------------------------------------------

  /** A canvas (or video frame) size in pixels. */
  datatype Canvas = Canvas(width: nat, height: nat)

  /** Random draws that `Math.random()` can return. */
  ghost predicate UnitDraws(rand: nat -> real)
  {
    forall i: nat :: 0.0 <= rand(i) < 1.0
  }

  /** The optional tear after the cell pass, reading the random stream from k:
      no draw at chaos 0.6 or below, else one gate draw and, on a tear, three
      more for height, position and offset. */
  function Glitch(chaos: real, canvas: Canvas, rand: nat -> real, k: nat): (d: Drawn)
    ensures !TearEligible(chaos) ==> d == Drawn([], k)
    ensures TearEligible(chaos) ==> (d.ops != [] <==> rand(k) > 0.9)
    ensures TearEligible(chaos) && d.ops == [] ==> d.cursor == k + 1
    ensures d.ops != [] ==>
      |d.ops| == 1 && d.ops[0].CopyStrip? && d.ops[0].stripWidth == canvas.width && d.cursor == k + 4
  {
    if chaos > 0.6 && rand(k) > 0.9 then
      var sliceHeight := rand(k + 1) * 50.0;
      var sliceY := rand(k + 2) * canvas.height as real;
      var offset := (rand(k + 3) - 0.5) * 50.0;
      Drawn([CopyStrip(sliceY, sliceHeight, offset, canvas.width)], k + 4)
    else if chaos > 0.6 then Drawn([], k + 1)
    else Drawn([], k)
  }

  /** With genuine random draws a tear is under 50 pixels high, starts within
      the canvas and shifts by at least -25 and under 25 pixels. */
  lemma GlitchRanges(chaos: real, canvas: Canvas, rand: nat -> real, k: nat)
    requires UnitDraws(rand)
    ensures var d := Glitch(chaos, canvas, rand, k);
      d.ops != [] ==>
        && 0.0 <= d.ops[0].sliceHeight < 50.0
        && 0.0 <= d.ops[0].sliceY <= canvas.height as real
        && (canvas.height > 0 ==> d.ops[0].sliceY < canvas.height as real)
        && -25.0 <= d.ops[0].offset < 25.0
  {
    var d := Glitch(chaos, canvas, rand, k);
    if d.ops != [] {
      var op := d.ops[0];
      assert op == CopyStrip(rand(k + 2) * canvas.height as real, rand(k + 1) * 50.0,
                             (rand(k + 3) - 0.5) * 50.0, canvas.width);
      ScaleUnitDraw(rand(k + 1), 50.0);
      ScaleUnitDraw(rand(k + 2), canvas.height as real);
      ScaleUnitDraw(rand(k + 3), 50.0);
    }
  }

  /** A draw in [0, 1) scaled by a non-negative h lies in [0, h], and below h
      when h is positive. */
  lemma ScaleUnitDraw(u: real, h: real)
    requires 0.0 <= u < 1.0 && h >= 0.0
    ensures 0.0 <= u * h <= h
    ensures h > 0.0 ==> u * h < h
  {
    assert h - u * h == (1.0 - u) * h;
  }

  // ---------------------------------------------------------------------------
  // One animation-frame tick
  // ---------------------------------------------------------------------------

  /** What the host offers one animation-frame callback. */
  datatype Host = Host(
    ready: bool,            // video, canvas and 2-D context exist and the video has enough data
    video: Canvas,          // intrinsic size of the camera frame
    tempContext: bool,      // a 2-D context for the scratch canvas was obtained
    pixels: seq<Byte>,      // RGBA of the frame drawn at cols by rows
    wave: int -> real,      // t -> sin(t + seconds since the epoch)
    rand: nat -> real)      // successive results of the random number generator

  /** The canvas after a tick, what was drawn, whether the next frame was
      requested, and how far the random stream was read. */
  datatype TickResult = TickResult(canvas: Canvas, ops: seq<DrawOp>, rescheduled: bool, cursor: nat)

  /** The canvas adopts the video's size when their widths differ; only then
      is the height updated too. */
  function Resize(canvas: Canvas, video: Canvas): (c: Canvas)
    ensures c.width == video.width
    ensures canvas.width == video.width ==> c == canvas
    ensures canvas.width != video.width ==> c == video
  {
    if canvas.width != video.width then video else canvas
  }

  /** The grid a ready tick uses. */
  function TickGrid(screenTime: real, canvas: Canvas, video: Canvas): (g: Grid)
    ensures g.cellSize == CellSizeFor(screenTime)
  {
    var c := Resize(canvas, video);
    GridOf(c.width, c.height, CellSizeFor(screenTime))
  }

  /** A grid with no column or no row. Reading the image data of such a
      region fails: the HTML canvas `getImageData` throws an "IndexSizeError"
      when the width or height asked for is zero. */
  predicate EmptyGrid(g: Grid)
  {
    g.cols == 0 || g.rows == 0
  }

  /** The sampled buffer has four bytes per cell of the tick's grid. */
  predicate SampleFits(screenTime: real, canvas: Canvas, host: Host)
  {
    var g := TickGrid(screenTime, canvas, host.video);
    |host.pixels| == 4 * (g.cols * g.rows)
  }

  /** A tick that gets past both early returns and reads a non-empty grid. */
  predicate FullTick(screenTime: real, canvas: Canvas, host: Host)
  {
    host.ready && host.tempContext && !EmptyGrid(TickGrid(screenTime, canvas, host.video))
  }

  /** One call of the frame callback. */
  function Tick(screenTime: real, canvas: Canvas, host: Host, k: nat): (t: TickResult)
    requires FullTick(screenTime, canvas, host) ==> SampleFits(screenTime, canvas, host)
    // not ready: nothing drawn, canvas untouched, next frame requested
    ensures !host.ready ==> t == TickResult(canvas, [], true, k)
    ensures host.ready ==> t.canvas.width == host.video.width
    // no scratch context, or an empty grid whose image-data read throws:
    // nothing drawn, no draw read, and the loop stops
    ensures host.ready && !FullTick(screenTime, canvas, host) ==> t.ops == [] && t.cursor == k
    ensures t.rescheduled <==> !host.ready || FullTick(screenTime, canvas, host)
    // a full tick blanks the whole canvas first
    ensures FullTick(screenTime, canvas, host) ==>
      |t.ops| >= 1 && t.ops[0] == FillRect(0, 0, t.canvas.width, t.canvas.height, Black)
    ensures t.cursor >= k
  {
    if !host.ready then TickResult(canvas, [], true, k)
    else
      var c := Resize(canvas, host.video);
      if !host.tempContext then TickResult(c, [], false, k)
      else
        var g := TickGrid(screenTime, canvas, host.video);
        if EmptyGrid(g) then TickResult(c, [], false, k)
        else
          var chaos := ChaosLevel(screenTime);
          var p := RenderPass(g, chaos, host.pixels, host.wave, host.rand);
          RenderRowsAccounted(p, p.grid.rows, k);
          var cells := RenderRows(p, p.grid.rows, k);
          var tear := Glitch(chaos, c, host.rand, cells.cursor);
          TickResult(c, [FillRect(0, 0, c.width, c.height, Black)] + cells.ops + tear.ops, true, tear.cursor)
  }

  /** A video narrower than one cell gives a grid with no column: the tick
      draws nothing and the animation loop ends. */
  lemma NarrowVideoEndsLoop(canvas: Canvas, host: Host, k: nat)
    requires host.ready && host.tempContext && host.video == Canvas(9, 100)
    ensures var t := Tick(0.0, canvas, host, k);
      t.ops == [] && !t.rescheduled && t.canvas.width == 9
  {
    assert CellSizeFor(0.0) == 19 by { assert CellSize(0.1) == 19; }
    assert TickGrid(0.0, canvas, host.video).cols == 0;
  }

  /** Every operation of a tick stays on the canvas it leaves behind. */
  lemma TickStaysOnCanvas(screenTime: real, canvas: Canvas, host: Host, k: nat)
    requires FullTick(screenTime, canvas, host) ==> SampleFits(screenTime, canvas, host)
    ensures var t := Tick(screenTime, canvas, host, k);
      forall op :: op in t.ops ==> Inside(op, t.canvas.width, t.canvas.height)
  {
    if FullTick(screenTime, canvas, host) {
      var c := Resize(canvas, host.video);
      var p := RenderPass(TickGrid(screenTime, canvas, host.video), ChaosLevel(screenTime),
                          host.pixels, host.wave, host.rand);
      RenderRowsInsideGrid(p, p.grid.rows, k);
    }
  }

  /** On an all-black frame a tick draws only the background (a tear, when one
      happens, copies that background onto itself). */
  lemma BlackFrameTick(screenTime: real, canvas: Canvas, host: Host, k: nat)
    requires FullTick(screenTime, canvas, host) && SampleFits(screenTime, canvas, host)
    requires forall i :: 0 <= i < |host.pixels| ==> host.pixels[i] == 0
    ensures var t := Tick(screenTime, canvas, host, k);
      && t.ops[0] == FillRect(0, 0, t.canvas.width, t.canvas.height, Black)
      && forall i :: 1 <= i < |t.ops| ==> t.ops[i].CopyStrip?
    ensures |Tick(screenTime, canvas, host, k).ops| <= 2
  {
    var p := RenderPass(TickGrid(screenTime, canvas, host.video), ChaosLevel(screenTime),
                        host.pixels, host.wave, host.rand);
    BlackBufferIsDark(p);
    DarkFrameDrawsNothing(p, k);
  }

  /** At 7.2 hours of screen time or less no tick ever tears, whatever the
      frame and the random draws. */
  lemma CalmTickNeverTears(screenTime: real, canvas: Canvas, host: Host, k: nat)
    requires screenTime <= 7.2
    requires FullTick(screenTime, canvas, host) ==> SampleFits(screenTime, canvas, host)
    ensures forall op :: op in Tick(screenTime, canvas, host, k).ops ==> !op.CopyStrip?
  {
    if FullTick(screenTime, canvas, host) {
      TearThreshold(screenTime);
      var p := RenderPass(TickGrid(screenTime, canvas, host.video), ChaosLevel(screenTime),
                          host.pixels, host.wave, host.rand);
      RenderRowsNeverTear(p, p.grid.rows, k);
    }
  }
}

=== FILE: types.dfy ===
/** The shapes shared by the application's screens. */
module Types {

  /** What the user typed on the onboarding card: age in whole years and
      daily screen time in hours. */
  datatype UserStats = UserStats(age: int, dailyScreenTime: real)

  /** The two-field answer of the text-generation service. */
  datatype RoastResponse = RoastResponse(roast: string, alternativeActivity: string)

  /** The three screens of the application. */
  datatype AppStage = Onboarding | MosaicMirror | DayBuilder
}

=== FILE: wrappers.dfy ===
/** A value that may be absent: the model's stand-in for `null` and for a
    numeric parse that produced `NaN`. */
module Wrappers {

  datatype Option<+T> = None | Some(value: T) {

    /** The wrapped value, or `default` when there is none. */
    function GetOr(default: T): T {
      match this
      case Some(v) => v
      case None => default
    }
  }
}
